=== FILE: README.md ===
# Push-notification handlers, modelled in Dafny

A model of the four Cloud Function handlers in `functions/index.js` of a
push-notification backend:

- `sendPushNotification`, the callable direct dispatch. It validates title,
  body and topic and sends one message. It then marks as `sent` every
  notification record whose title, body and topic equal the request's. On any
  error it marks those records `failed` and raises an `internal` error.
- `processPendingNotifications`, the creation trigger on `notifications/{id}`.
  A record created as `pending` is sent once and then patched, under its own
  key, to `sent` or `failed`. Any other record is left alone.
- `subscribeUserToTopics`, the creation trigger on `users/{userId}`. It
  subscribes the user id to the topics of the user's role.
- `updateUserFcmToken`, the write trigger on `users/{userId}/fcm_token`. When
  the token changes to a non-empty value, it subscribes the new token to the
  topics of the user's role.

Every handler is a pure function of the event payload, the records it reads
and a gateway oracle.

- The two notification handlers take the notification store (a `map` from key
  to record). They return the new store, the handler's return value or thrown
  error, the messages handed to the gateway and the batched updates written,
  in order.
- The two subscription handlers take no notification store.
  `updateUserFcmToken` takes the `users` collection as a `map` from user id to
  user record. Both return the handler's result (`null` or
  `{success, topics | error}`), the user records read and the subscription
  calls issued, in order.

The modules are:

- `Common`: optional JSON fields and JavaScript truthiness.
- `NotificationStore`: records, field-level patches and multi-path updates.
- `Matcher`: the title query followed by the body/topic filter.
- `Messaging`: outgoing messages and send outcomes.
- `EntryPoints`: the two notification entry points send the same message for the same content.
- `Dispatch` and `DispatchProperties`: the direct-dispatch handler.
- `PendingTrigger`: the creation trigger.
- `TopicPolicy`: the role-to-topics rule.
- `Subscriptions`: the two subscription handlers.

Abstractions:

- The messaging gateway is an oracle parameter. `SendOutcome` gives the result
  of the one send. `SubscribeGateway` gives the answer to each
  `subscribeToTopic` call.
- The clock is a `now` parameter.
- Whether the failure-marking write reaches the store is a boolean parameter,
  `failureWriteOk`.

The model follows the code, including two behaviours a reader of the handler
might not expect:

- The `invalid-argument` error for a missing field is thrown inside the `try`.
  The catch block therefore turns it into an `internal` error whose message is
  the fixed prefix followed by the validation message. This happens after the
  failure-marking pass has run (`DispatchProperties.MissingFieldsSurfaceAsInternal`).
  The handler's own error code would suggest the caller sees `invalid-argument`.
  The model follows the code.
- The content matcher does not look at `status`. A record that is already
  `sent` or `failed` is overwritten by a later dispatch with the same content.
  A failed record that is overwritten to `sent` keeps its old `error` field.
  A sent record that a rejected dispatch overwrites to `failed` keeps its old
  `message_id` and `sent_at` (`DispatchProperties.TerminalRecordsAreOverwritten`). So the "terminal states
  are never revisited" lifecycle holds for the creation trigger
  (`PendingTrigger.ProcessingIsIdempotent`) but not for direct dispatch.

## Model

| member | source | states |
|---|---|---|
| Matcher.BatchFor | functions/index.js:37-51 | The title query followed by the body/topic filter selects exactly the stored records whose title, body and topic all equal the request's values. An absent request field matches nothing. Every selected key receives the same patch. |
| EntryPoints.BothEntriesSendSameMessage | functions/index.js:19-27 | A direct dispatch of a pending record's title, body, topic and data sends exactly one message, and it is the same message the creation trigger (lines 115-123) sends for that record. Absent data is sent as an empty object in both. |
| Dispatch.SendPushNotification | functions/index.js:7-98 | The new store is the result of at most one non-empty batched update, and that update touches only records with the request's title, body and topic. No record is added or removed, and every other record is unchanged. Exactly one message is sent when all three fields are truthy, and none otherwise. The call returns `{messageId, message}` exactly when the fields are valid and the send succeeds. In that case every matching record, whatever its prior status, gets `sent`, `sent_at = now` and the gateway's id. Otherwise the call throws `internal` with the prefix followed by the caught message. The matching records are then marked `failed` with that message if the failure write succeeds, and left unchanged if it does not. |
| Dispatch.RecordFailure | functions/index.js:63-97 | The catch block always throws `internal` with the prefix followed by the caught message, and adds no send. Records with the request's title, body and topic are marked `failed` with that message when the failure write succeeds. They are left unchanged when it fails, and then nothing is written. No other record changes. |
| DispatchProperties.MissingFieldsSurfaceAsInternal | functions/index.js:12-97 | A request missing title, body or topic sends nothing. It raises `internal` with the prefixed validation message, never `invalid-argument`. The matching records are still marked `failed` with the validation message. |
| DispatchProperties.FailureWriteIsSwallowed | functions/index.js:66-97 | A failed write of the failure status changes neither the response nor the sends. When the call throws and that write fails, the store is unchanged. |
| DispatchProperties.TerminalRecordsAreOverwritten | functions/index.js:44-84 | For any store and any valid request, a matching record is overwritten whatever its status. On a successful send it becomes `sent` with the new id and time and keeps its old `error`, so a `failed` record turns `sent`. On a rejected send it becomes `failed` with the new reason and keeps its old `message_id` and `sent_at`, so a `sent` record turns `failed`. |
| DispatchProperties.DuplicatesShareOneMessageId | functions/index.js:42-55 | Two pending records with identical title, body and topic are both marked `sent` with the single message id of the single send. |
| DispatchProperties.QuotaExceededMarksMatchesFailed | functions/index.js:63-97 | A rejected send raises `internal` carrying the gateway's reason. Every matching record gets `failed` and that reason as its error. |
| NotificationStore.Apply | functions/index.js:129-133 | One multi-path field update, as at lines 54, 87, 129-133 and 140-143. It adds and removes no records and never changes a record's title, body, topic or data. A record the update does not name is unchanged. A `sent` patch sets status, `sent_at` and `message_id` and keeps any old error. A `failed` patch sets status and error and keeps any old `sent_at` and `message_id`. |
| NotificationStore.ApplyAllFrame | functions/index.js:53-55 | A sequence of multi-path field updates that name only existing records adds and removes no records. A record that none of the updates names is unchanged. |
| PendingTrigger.ProcessPendingNotification | functions/index.js:105-146 | A record that is not `pending` returns `null` with no send and no write. A pending record gets exactly one send and one write, and the write names only its own key. On success the record becomes `sent` with `sent_at = now` and the id, and the result is `{success: true, messageId}`. On failure it becomes `failed` with the reason, and the result is `{success: false, error}`. All other records are unchanged. |
| PendingTrigger.ProcessingIsIdempotent | functions/index.js:107-110 | After the trigger, a record that was pending is no longer pending. Running the trigger again on the result is a no-op that returns `null`. |
| PendingTrigger.FireDrillIsSent | functions/index.js:112-135 | A newly created pending "Fire Drill" record causes one send of its own content. It is then updated in place to `sent` with the gateway's id and the current time. |
| TopicPolicy.TopicsFor | functions/index.js:158-164 | The topic list always starts with `all` and has one or two distinct entries. It contains `residents` exactly when the role is 住戶 (resident). It contains `admin` exactly when the role is 管理員 (administrator). Any other or absent role gives `["all"]`. Lines 203-209 hold the identical rule, which is the same function here. |
| Subscriptions.SubscribeEach | functions/index.js:167-169 | Calls are issued one per topic, in list order, each for the given identifier. Every call before the last one was accepted. With no failure, every call was accepted. With a failure, the last call issued is the first refused one and its reason is reported. Nothing is undone. |
| Subscriptions.AllAcceptedIffNoFailure | functions/index.js:167-175 | The loop completes without failure exactly when the gateway accepts every topic. A non-empty list always issues at least one call. |
| Subscriptions.SubscribeUserToTopics | functions/index.js:153-176 | The user id is subscribed, in order, to a prefix of its role's topics, with no user read. The result is `{success: true, topics}` exactly when every call was accepted, with all topics called. Otherwise it is `{success: false, error}` with the refusing call's reason. Every call before the last one was accepted, so the loop stops at the first refusal. |
| Subscriptions.UpdateUserFcmToken | functions/index.js:183-221 | An empty, absent or unchanged new token returns `null`, with no user read and no call. A missing user record returns `null` after one read, with no call. Otherwise the new token, not the user id, is subscribed in order to a prefix of the role's topics. The result is `{success: true, topics}` exactly when every topic was accepted, and then every topic was called. Otherwise it is the refusing call's reason. Every call before the last one was accepted, so the loop stops at the first refusal. |
| Subscriptions.AdministratorGetsAllAndAdmin | functions/index.js:158-169 | Creating an administrator whose subscriptions all succeed issues calls for `all` and then `admin`, and reports both topics. |

## Left out

- Dispatch.SendPushNotification: a `null` or missing callable payload is not modelled. The request is always an object with optional fields. In the source, the destructuring at functions/index.js:9 throws a TypeError inside the `try`. Reading `data.title` at line 73 then throws again, and that second error is swallowed. The caller gets `internal` with the prefix followed by the TypeError's message, with no send and no store change. The model's nearest input, a request with every field absent, gives the same sends and store but the prefixed validation message instead.
- Firebase initialisation and trigger registration (functions/index.js:1-4 and the `functions.*` wrappers) are runtime plumbing.
- Logging (`console.log` / `console.error`) and the localised strings. The strings are kept only as constants where they form part of a message.
- Time formatting: each `new Date().toISOString()` is the opaque `now` parameter. The one-instant-per-record stamps of the success loop are collapsed to one instant.
- Store faults on the direct-dispatch success path are not modelled: the title query and the `update` there are treated as infallible. In the real handler such a fault would be caught and would run the failure-marking pass after a message had already been sent.
- The failure-marking pass is all-or-nothing through `failureWriteOk`. This outcome also covers the store rejecting the title query. One case of that is `equalTo(undefined)` when the title is absent, which the model instead treats as matching nothing; both give no update.
- PendingTrigger.ProcessPendingNotification: the failure-path update (functions/index.js:140-143) is treated as infallible. In the source its own store error would escape the trigger.
- PendingTrigger.ProcessPendingNotification: requires the created key to be in the store. The record is read from the store rather than from the event snapshot. Changes to the record between creation and handling are not modelled.
- PendingTrigger.ProcessPendingNotification: the success-path update (functions/index.js:129-133) is treated as infallible. In the source its failure is caught at line 136: the record is then marked `failed` with the store's error, after the message was already sent, and the result is `{success: false, error}`.
- Subscriptions.UpdateUserFcmToken: the user read (functions/index.js:193-195) is treated as infallible. In the source its failure is caught at line 218 and gives `{success: false, error}` with no subscription call.
- NotificationStore.Apply ignores a patch for a key that is not in the store. The real store would create a record fragment at that path. No handler writes such a key: every batch names only records it read.
- Concurrent handler invocations are not modelled, nor is the race between the match read and the update. The model is sequential.
- Stored notification records are assumed to carry string `title`, `body` and `topic`. Request fields, tokens and roles are strings or absent. Other JSON value types and their loose comparisons are not modelled.
- `status` values other than `pending`, `sent` and `failed`, including an absent status, are collapsed into `Other`. The handlers only test for `pending`.
- The subscription gateway answers each (token, topic) pair. The topics of one run are distinct, so this is one answer per call. Subscription state at the gateway is not modelled, so stale tokens and idempotence are out of scope.
- Subscriptions.SubscribeUserToTopics: the `[userId]` and `[newToken]` one-element token lists are modelled as a single identifier per call.

=== FILE: common.dfy ===
/** Values shared by every handler: optional values and JavaScript truthiness. */
module Common {

  /** A JSON field: `None` when it is `undefined` or `null`, `Some` otherwise. */
  datatype Option<T> = None | Some(value: T)

  /** `field || fallback` for an object-valued field: every present object is
      truthy, so only an absent field falls back. */
  function OrElse<T>(field: Option<T>, fallback: T): T {
    if field.Some? then field.value else fallback
  }

  /** JavaScript truthiness of an optional string: an absent value and the
      empty string are falsy, every other string is truthy. */
  predicate Truthy(s: Option<string>) {
    s.Some? && s.value != ""
  }
}

=== FILE: dispatch.dfy ===
/** The callable `sendPushNotification` handler: validate, send once, then
    mark every record with the same title, body and topic as sent; on any
    error mark them failed and raise `internal`. */
module Dispatch {
  import opened Common
  import opened NotificationStore
  import opened Matcher
  import opened Messaging

  const MissingParameters := "缺少必要參數：title, body, topic"
  const FailurePrefix := "發送推播通知失敗: "
  const SuccessText := "推播通知發送成功"

  /** The call's payload; every field may be absent. */
  datatype Request = Request(
    title: Option<string>,
    body: Option<string>,
    topic: Option<string>,
    data: Option<map<string, string>>)

  datatype ErrorCode = InvalidArgument | Internal

  datatype HttpsError = HttpsError(code: ErrorCode, message: string)

  /** `{success: true, messageId, message}` */
  datatype Reply = Reply(messageId: string, message: string)

  datatype Response = Returned(reply: Reply) | Thrown(error: HttpsError)

  /** The new store, the caller's response, the messages handed to the
      gateway and the batched updates that reached the store, in order. */
  datatype DirectOutcome = DirectOutcome(store: Store, response: Response, sends: seq<Message>, writes: seq<Batch>)

  /** The validation at the top of the handler: all three fields truthy. */
  predicate HasRequiredFields(req: Request) {
    Truthy(req.title) && Truthy(req.body) && Truthy(req.topic)
  }

  /** The `message` of the error the catch block sees. */
  function CaughtReason(req: Request, gateway: SendOutcome): string {
    if !HasRequiredFields(req) then MissingParameters
    else if gateway.Rejected? then gateway.reason
    else ""
  }

  /** The catch block: mark the matching records failed (a failure of that
      write, `failureWriteOk == false`, is swallowed), then raise `internal`
      carrying the caught error's message. */
  function RecordFailure(store: Store, req: Request, reason: string, sends: seq<Message>, failureWriteOk: bool): (o: DirectOutcome)
    ensures o.response == Thrown(HttpsError(Internal, FailurePrefix + reason))
    ensures o.sends == sends
    ensures o.store == ApplyAll(store, o.writes)
    ensures !failureWriteOk ==> o.writes == [] && o.store == store
    ensures o.store.Keys == store.Keys
    ensures forall k :: k in store && !SameContent(store[k], req.title, req.body, req.topic) ==> o.store[k] == store[k]
    ensures forall k :: k in store && SameContent(store[k], req.title, req.body, req.topic) ==>
              o.store[k] == if failureWriteOk then store[k].(status := Failed, error := Some(reason)) else store[k]
  {
    var batch := BatchFor(store, req.title, req.body, req.topic, MarkFailed(reason));
    var writes := if failureWriteOk && batch != map[] then [batch] else [];
    DirectOutcome(ApplyAll(store, writes), Thrown(HttpsError(Internal, FailurePrefix + reason)), sends, writes)
  }

  function SendPushNotification(store: Store, req: Request, now: Timestamp, gateway: SendOutcome, failureWriteOk: bool): (o: DirectOutcome)
    // the store is exactly the effect of the updates issued: at most one, never empty
    ensures o.store == ApplyAll(store, o.writes)
    ensures |o.writes| <= 1
    ensures forall i :: 0 <= i < |o.writes| ==> o.writes[i] != map[]
    // frame: only records with the request's title, body and topic are touched
    ensures forall i, k :: 0 <= i < |o.writes| && k in o.writes[i] ==>
              k in store && SameContent(store[k], req.title, req.body, req.topic)
    ensures o.store.Keys == store.Keys
    ensures forall k :: k in store && !SameContent(store[k], req.title, req.body, req.topic) ==> o.store[k] == store[k]
    // one send, and only after validation
    ensures HasRequiredFields(req) ==> o.sends == [Compose(req.title.value, req.body.value, req.data, req.topic.value)]
    ensures !HasRequiredFields(req) ==> o.sends == []
    // success
    ensures o.response.Returned? <==> HasRequiredFields(req) && gateway.Delivered?
    ensures o.response.Returned? ==> o.response.reply == Reply(gateway.messageId, SuccessText)
    ensures o.response.Returned? ==>
              forall k :: k in store && SameContent(store[k], req.title, req.body, req.topic) ==>
                o.store[k] == store[k].(status := Sent, sentAt := Some(now), messageId := Some(gateway.messageId))
    // failure: always `internal`, carrying the caught message
    ensures o.response.Thrown? ==> o.response.error == HttpsError(Internal, FailurePrefix + CaughtReason(req, gateway))
    ensures o.response.Thrown? ==>
              forall k :: k in store && SameContent(store[k], req.title, req.body, req.topic) ==>
                o.store[k] == if failureWriteOk then store[k].(status := Failed, error := Some(CaughtReason(req, gateway)))
                              else store[k]
  {
    if !HasRequiredFields(req) then
      var invalid := HttpsError(InvalidArgument, MissingParameters);
      RecordFailure(store, req, invalid.message, [], failureWriteOk)
    else
      var message := Compose(req.title.value, req.body.value, req.data, req.topic.value);
      match gateway
      case Delivered(id) =>
        var batch := BatchFor(store, req.title, req.body, req.topic, MarkSent(now, id));
        var writes := if batch != map[] then [batch] else [];
        DirectOutcome(ApplyAll(store, writes), Returned(Reply(id, SuccessText)), [message], writes)
      case Rejected(reason) =>
        RecordFailure(store, req, reason, [message], failureWriteOk)
  }
}

/** Consequences of the direct-dispatch contract that are easy to miss in the
    source: where its behaviour departs from what the handler's error codes
    and the status lifecycle suggest. */
module DispatchProperties {
  import opened Common
  import opened NotificationStore
  import opened Matcher
  import opened Messaging
  import opened Dispatch

  /** The `invalid-argument` error is raised inside the `try`, so the caller
      sees `internal` with the prefixed validation message, nothing is sent,
      and the failure-marking pass still runs. */
  lemma MissingFieldsSurfaceAsInternal(store: Store, req: Request, now: Timestamp, gateway: SendOutcome, failureWriteOk: bool)
    requires !HasRequiredFields(req)
    ensures var o := SendPushNotification(store, req, now, gateway, failureWriteOk);
      && o.sends == []
      && o.response == Thrown(HttpsError(Internal, FailurePrefix + MissingParameters))
      && (failureWriteOk ==> forall k :: k in store && SameContent(store[k], req.title, req.body, req.topic) ==>
            o.store[k].status == Failed && o.store[k].error == Some(MissingParameters))
  {
  }

  /** A failure while writing the failed status changes only the store: the
      caller sees the same error and the gateway saw the same sends. */
  lemma FailureWriteIsSwallowed(store: Store, req: Request, now: Timestamp, gateway: SendOutcome)
    ensures SendPushNotification(store, req, now, gateway, false).response == SendPushNotification(store, req, now, gateway, true).response
    ensures SendPushNotification(store, req, now, gateway, false).sends == SendPushNotification(store, req, now, gateway, true).sends
    ensures SendPushNotification(store, req, now, gateway, false).response.Thrown? ==>
              SendPushNotification(store, req, now, gateway, false).store == store
  {
  }

  /** The matcher ignores `status`: a record already `failed` that a later
      successful dispatch matches becomes `sent` and keeps its stale `error`;
      a record already `sent` that a later rejected dispatch matches becomes
      `failed` and keeps its `message_id` and `sent_at`. */
  lemma TerminalRecordsAreOverwritten(store: Store, req: Request, now: Timestamp, gateway: SendOutcome, k: Key)
    requires HasRequiredFields(req)
    requires k in store && SameContent(store[k], req.title, req.body, req.topic)
    ensures var o := SendPushNotification(store, req, now, gateway, true);
      && (gateway.Delivered? ==>
            && o.store[k].status == Sent && o.store[k].messageId == Some(gateway.messageId)
            && o.store[k].sentAt == Some(now) && o.store[k].error == store[k].error)
      && (gateway.Rejected? ==>
            && o.store[k].status == Failed && o.store[k].error == Some(gateway.reason)
            && o.store[k].messageId == store[k].messageId && o.store[k].sentAt == store[k].sentAt)
  {
  }

  /** Two pending records with identical content both become `sent` with the
      one message id of the single send. */
  lemma DuplicatesShareOneMessageId(store: Store, k1: Key, k2: Key, now: Timestamp, id: string)
    requires k1 in store && k2 in store && k1 != k2
    requires store[k1].status == Pending && store[k2].status == Pending
    requires store[k1].title == store[k2].title != ""
    requires store[k1].body == store[k2].body != ""
    requires store[k1].topic == store[k2].topic != ""
    ensures var req := Request(Some(store[k1].title), Some(store[k1].body), Some(store[k1].topic), None);
      var o := SendPushNotification(store, req, now, Delivered(id), true);
      && |o.sends| == 1
      && o.store[k1].status == Sent && o.store[k2].status == Sent
      && o.store[k1].messageId == o.store[k2].messageId == Some(id)
  {
  }

  /** A rejected send raises `internal` naming the gateway's reason and marks
      every matching record `failed` with that reason. */
  lemma QuotaExceededMarksMatchesFailed(store: Store, now: Timestamp)
    ensures var req := Request(Some("Fire Drill"), Some("Evacuate now"), Some("residents"), None);
      var o := SendPushNotification(store, req, now, Rejected("quota exceeded"), true);
      && o.response == Thrown(HttpsError(Internal, FailurePrefix + "quota exceeded"))
      && forall k :: k in store && SameContent(store[k], req.title, req.body, req.topic) ==>
           o.store[k].status == Failed && o.store[k].error == Some("quota exceeded")
  {
  }
}

=== FILE: matcher.dfy ===
/** Locating the records a direct dispatch refers to: an indexed equality query
    on `title`, then an in-memory filter on `body` and `topic`. Nothing filters
    on `status`, so terminal records match as well. */
module Matcher {
  import opened Common
  import opened NotificationStore

  /** The record's title, body and topic are exactly the given values
      (strict equality: an absent value never equals a stored string). */
  predicate SameContent(r: NotificationRecord, title: Option<string>, body: Option<string>, topic: Option<string>) {
    title == Some(r.title) && body == Some(r.body) && topic == Some(r.topic)
  }

  /** The update object the snapshot walk builds: `patch` for every child of
      the single-field equality query on `title` whose body and topic also equal the query values. */
  function BatchFor(store: Store, title: Option<string>, body: Option<string>, topic: Option<string>, patch: Patch): (batch: Batch)
    ensures forall k :: k in batch <==> k in store && SameContent(store[k], title, body, topic)
    ensures forall k :: k in batch ==> batch[k] == patch
  {
    var snapshot := map k | k in store && title == Some(store[k].title) :: store[k];
    map k | k in snapshot && body == Some(snapshot[k].body) && topic == Some(snapshot[k].topic) :: patch
  }
}

=== FILE: messaging.dfy ===
/** The messaging gateway as an oracle: the message a handler hands to it, and
    the outcome it reports for one send. */
module Messaging {
  import opened Common

  /** `{notification: {title, body}, data, topic}` */
  datatype Message = Message(title: string, body: string, data: map<string, string>, topic: string)

  /** A send either yields the gateway's message id or fails with an error
      whose `message` is `reason`. */
  datatype SendOutcome = Delivered(messageId: string) | Rejected(reason: string)

  /** Builds the outgoing message; absent `data` is sent as an empty object. */
  function Compose(title: string, body: string, data: Option<map<string, string>>, topic: string): (m: Message)
    ensures m.title == title && m.body == body && m.topic == topic
    ensures data.Some? ==> m.data == data.value
    ensures data.None? ==> m.data == map[]
  {
    Message(title, body, OrElse(data, map[]), topic)
  }
}

=== FILE: notification_store.dfy ===
/** The `notifications` collection of the record store, as the handlers see it:
    records keyed by store-generated ids, and the field-level patches the
    handlers write to them. */
module NotificationStore {
  import opened Common

  type Key = string

  /** An instant as the handlers stamp it; its textual format is not modelled. */
  type Timestamp = string

  /** The `status` field. `Other` stands for any other stored value,
      including an absent one. */
  datatype Status = Pending | Sent | Failed | Other

  datatype NotificationRecord = NotificationRecord(
    title: string,
    body: string,
    topic: string,
    data: Option<map<string, string>>,
    status: Status,
    sentAt: Option<Timestamp>,
    messageId: Option<string>,
    error: Option<string>)

  type Store = map<Key, NotificationRecord>

  /** A field-level update of one record: only the named fields are written,
      every other field of the record keeps its value. */
  datatype Patch = MarkSent(sentAt: Timestamp, messageId: string) | MarkFailed(error: string)

  function Patched(r: NotificationRecord, p: Patch): NotificationRecord {
    match p
    case MarkSent(at, id) => r.(status := Sent, sentAt := Some(at), messageId := Some(id))
    case MarkFailed(e) => r.(status := Failed, error := Some(e))
  }

  /** One multi-path `update` call: a patch per record key, written atomically. */
  type Batch = map<Key, Patch>

  /** A field-level update never adds or removes records and never touches a
      record's content (title, body, topic, data); a named record gets exactly
      its patch's fields, an unnamed one is unchanged. */
  function Apply(store: Store, batch: Batch): (s: Store)
    ensures s.Keys == store.Keys
    ensures forall k :: k in store ==>
              s[k].title == store[k].title && s[k].body == store[k].body
              && s[k].topic == store[k].topic && s[k].data == store[k].data
    ensures forall k :: k in store && k !in batch ==> s[k] == store[k]
    ensures forall k :: k in store && k in batch && batch[k].MarkSent? ==>
              && s[k].status == Sent && s[k].sentAt == Some(batch[k].sentAt)
              && s[k].messageId == Some(batch[k].messageId) && s[k].error == store[k].error
    ensures forall k :: k in store && k in batch && batch[k].MarkFailed? ==>
              && s[k].status == Failed && s[k].error == Some(batch[k].error)
              && s[k].sentAt == store[k].sentAt && s[k].messageId == store[k].messageId
  {
    map k | k in store :: if k in batch then Patched(store[k], batch[k]) else store[k]
  }

  /** The store after the given updates, issued in order. */
  function ApplyAll(store: Store, batches: seq<Batch>): Store
    decreases |batches|
  {
    if batches == [] then store else ApplyAll(Apply(store, batches[0]), batches[1..])
  }

  /** Updates that name only existing records never add or remove records,
      and a key that no update names keeps its record. */
  lemma {:induction false} ApplyAllFrame(store: Store, batches: seq<Batch>, k: Key)
    requires k in store
    requires forall i :: 0 <= i < |batches| ==> batches[i].Keys <= store.Keys
    requires forall i :: 0 <= i < |batches| ==> k !in batches[i]
    ensures ApplyAll(store, batches).Keys == store.Keys
    ensures ApplyAll(store, batches)[k] == store[k]
    decreases |batches|
  {
    if batches != [] {
      var next := Apply(store, batches[0]);
      assert next.Keys == store.Keys;
      forall i | 0 <= i < |batches[1..]|
        ensures k !in batches[1..][i] && batches[1..][i].Keys <= next.Keys
      {
        assert batches[1..][i] == batches[i + 1];
      }
      ApplyAllFrame(next, batches[1..], k);
    }
  }
}

=== FILE: pending_trigger.dfy ===
/** The `processPendingNotifications` creation trigger: a record created with
    status `pending` is sent once and then patched, by its own key, to `sent`
    or `failed`; any other record is left alone. */
module PendingTrigger {
  import opened Common
  import opened NotificationStore
  import opened Messaging

  /** The trigger's return value: `null`, `{success: true, messageId}` or
      `{success: false, error}`. */
  datatype Report = Skipped | SentReport(messageId: string) | FailedReport(error: string)

  datatype TriggerOutcome = TriggerOutcome(store: Store, report: Report, sends: seq<Message>, writes: seq<Batch>)

  /** The message built from the record's own fields. */
  function MessageOf(r: NotificationRecord): Message {
    Compose(r.title, r.body, r.data, r.topic)
  }

  /** Runs for the record just created under `key`. */
  function ProcessPendingNotification(store: Store, key: Key, now: Timestamp, gateway: SendOutcome): (o: TriggerOutcome)
    requires key in store
    ensures o.store == ApplyAll(store, o.writes)
    // guard: a record that is not pending causes no send and no write
    ensures store[key].status != Pending ==> o == TriggerOutcome(store, Skipped, [], [])
    // a pending record is sent exactly once and only its own key is written
    ensures store[key].status == Pending ==> o.sends == [MessageOf(store[key])]
    ensures store[key].status == Pending ==> |o.writes| == 1 && o.writes[0].Keys == {key}
    ensures o.store.Keys == store.Keys
    ensures forall k :: k in store && k != key ==> o.store[k] == store[k]
    // the transition
    ensures store[key].status == Pending && gateway.Delivered? ==>
              && o.report == SentReport(gateway.messageId)
              && o.store[key] == store[key].(status := Sent, sentAt := Some(now), messageId := Some(gateway.messageId))
    ensures store[key].status == Pending && gateway.Rejected? ==>
              && o.report == FailedReport(gateway.reason)
              && o.store[key] == store[key].(status := Failed, error := Some(gateway.reason))
  {
    var record := store[key];
    if record.status != Pending then
      TriggerOutcome(store, Skipped, [], [])
    else
      var message := MessageOf(record);
      match gateway
      case Delivered(id) =>
        var writes := [map[key := MarkSent(now, id)]];
        TriggerOutcome(ApplyAll(store, writes), SentReport(id), [message], writes)
      case Rejected(reason) =>
        var writes := [map[key := MarkFailed(reason)]];
        TriggerOutcome(ApplyAll(store, writes), FailedReport(reason), [message], writes)
  }

  /** Re-running the trigger on its own result is a no-op: the record is no
      longer pending, so a pending record changes status at most once. */
  lemma ProcessingIsIdempotent(store: Store, key: Key, now: Timestamp, gateway: SendOutcome, now': Timestamp, gateway': SendOutcome)
    requires key in store
    ensures var o := ProcessPendingNotification(store, key, now, gateway);
      && key in o.store
      && (store[key].status == Pending ==> o.store[key].status != Pending)
      && ProcessPendingNotification(o.store, key, now', gateway').report == Skipped
      && ProcessPendingNotification(o.store, key, now', gateway').store == o.store
  {
  }

  /** A newly created pending "Fire Drill" record is sent once and updated in
      place to `sent` with the gateway's id and the current time. */
  lemma FireDrillIsSent(store: Store, key: Key, now: Timestamp, id: string)
    requires key in store
    requires store[key] == NotificationRecord("Fire Drill", "Evacuate now", "residents", None, Pending, None, None, None)
    ensures var o := ProcessPendingNotification(store, key, now, Delivered(id));
      && o.sends == [Message("Fire Drill", "Evacuate now", map[], "residents")]
      && o.store[key].status == Sent && o.store[key].messageId == Some(id) && o.store[key].sentAt == Some(now)
  {
  }
}

/** The two notification entry points agree on what they send. */
module EntryPoints {
  import opened Common
  import opened NotificationStore
  import opened Messaging
  import opened Dispatch
  import opened PendingTrigger

  /** Dispatching a pending record's content directly sends exactly the
      message the creation trigger sends for that record. */
  lemma BothEntriesSendSameMessage(store: Store, key: Key, now: Timestamp, gateway: SendOutcome, failureWriteOk: bool,
                                   now': Timestamp, gateway': SendOutcome)
    requires key in store && store[key].status == Pending
    requires store[key].title != "" && store[key].body != "" && store[key].topic != ""
    ensures var r := store[key];
      var direct := SendPushNotification(store, Request(Some(r.title), Some(r.body), Some(r.topic), r.data), now, gateway, failureWriteOk);
      var triggered := ProcessPendingNotification(store, key, now', gateway');
      && direct.sends == triggered.sends
      && |direct.sends| == 1
  {
  }
}

=== FILE: subscriptions.dfy ===
/** The two subscription handlers, `subscribeUserToTopics` (user created) and
    `updateUserFcmToken` (token field written): resolve the user's topics and
    subscribe one identifier to them, one call at a time, stopping at the
    first failure. */
module Subscriptions {
  import opened Common
  import opened TopicPolicy

  /** One `subscribeToTopic([token], topic)` call. */
  datatype SubscribeCall = SubscribeCall(token: string, topic: string)

  datatype SubscribeOutcome = Accepted | Refused(reason: string)

  /** The gateway's answer to each call. The topics of one run are distinct,
      so this is an answer per call of the run. */
  type SubscribeGateway = SubscribeCall -> SubscribeOutcome

  /** The calls issued, and the reason of the failure that stopped the loop. */
  datatype LoopRun = LoopRun(calls: seq<SubscribeCall>, failure: Option<string>)

  /** A `users/{userId}` record; only `role` is read by the handlers. */
  datatype User = User(role: Option<string>, fcmToken: Option<string>)

  /** `{success: true, topics}` or `{success: false, error}`. */
  datatype SyncReport = Synced(topics: seq<string>) | SyncFailed(error: string)

  /** The handler's return value (`None` for `null`), the user records it
      read, and the subscription calls it issued, in order. */
  datatype SyncOutcome = SyncOutcome(report: Option<SyncReport>, userReads: seq<string>, calls: seq<SubscribeCall>)

  /** The sequential `for ... of` loop with an awaited call per topic. */
  function SubscribeEach(token: string, topics: seq<string>, gateway: SubscribeGateway): (run: LoopRun)
    // calls go out one per topic, in list order, all for `token`
    ensures |run.calls| <= |topics|
    ensures forall i :: 0 <= i < |run.calls| ==> run.calls[i] == SubscribeCall(token, topics[i])
    // every call before the last one was accepted
    ensures forall i :: 0 <= i < |run.calls| - 1 ==> gateway(run.calls[i]) == Accepted
    // success: every topic was subscribed
    ensures run.failure.None? ==> |run.calls| == |topics| && forall i :: 0 <= i < |run.calls| ==> gateway(run.calls[i]) == Accepted
    // failure: the last call issued is the first refused one, and its reason is reported
    ensures run.failure.Some? ==> 0 < |run.calls| && gateway(run.calls[|run.calls| - 1]) == Refused(run.failure.value)
    decreases |topics|
  {
    if topics == [] then
      LoopRun([], None)
    else
      var call := SubscribeCall(token, topics[0]);
      match gateway(call)
      case Refused(reason) => LoopRun([call], Some(reason))
      case Accepted =>
        var rest := SubscribeEach(token, topics[1..], gateway);
        LoopRun([call] + rest.calls, rest.failure)
  }

  function ReportOf(run: LoopRun, topics: seq<string>): SyncReport {
    match run.failure
    case None => Synced(topics)
    case Some(reason) => SyncFailed(reason)
  }

  /** Runs when `users/{userId}` is created with value `user`; the user id
      itself is the subscribed identifier. */
  function SubscribeUserToTopics(userId: string, user: User, gateway: SubscribeGateway): (o: SyncOutcome)
    ensures o.report.Some? && o.userReads == []
    ensures 1 <= |o.calls| <= |TopicsFor(user.role)|
    ensures forall i :: 0 <= i < |o.calls| ==> o.calls[i] == SubscribeCall(userId, TopicsFor(user.role)[i])
    ensures o.report.value.Synced? <==>
              forall t :: t in TopicsFor(user.role) ==> gateway(SubscribeCall(userId, t)) == Accepted
    ensures o.report.value.Synced? ==> o.report.value.topics == TopicsFor(user.role) && |o.calls| == |TopicsFor(user.role)|
    ensures forall i :: 0 <= i < |o.calls| - 1 ==> gateway(o.calls[i]) == Accepted
    ensures o.report.value.SyncFailed? ==> gateway(o.calls[|o.calls| - 1]) == Refused(o.report.value.error)
  {
    var topics := TopicsFor(user.role);
    var run := SubscribeEach(userId, topics, gateway);
    AllAcceptedIffNoFailure(userId, topics, gateway);
    SyncOutcome(Some(ReportOf(run, topics)), [], run.calls)
  }

  /** Runs when `users/{userId}/fcm_token` changes from `before` to `after`;
      `users` is the `users` collection when the handler reads it. */
  function UpdateUserFcmToken(userId: string, before: Option<string>, after: Option<string>, users: map<string, User>, gateway: SubscribeGateway): (o: SyncOutcome)
    // guard: an empty, absent or unchanged token is ignored before any read
    ensures !Truthy(after) || after == before ==> o == SyncOutcome(None, [], [])
    // a missing user record: one read, then nothing
    ensures Truthy(after) && after != before && userId !in users ==> o == SyncOutcome(None, [userId], [])
    // otherwise: the new token is subscribed to the user's topics
    ensures Truthy(after) && after != before && userId in users ==>
              && o.report.Some? && o.userReads == [userId]
              && 1 <= |o.calls| <= |TopicsFor(users[userId].role)|
              && (forall i :: 0 <= i < |o.calls| ==> o.calls[i] == SubscribeCall(after.value, TopicsFor(users[userId].role)[i]))
              && (o.report.value.Synced? <==>
                    forall t :: t in TopicsFor(users[userId].role) ==> gateway(SubscribeCall(after.value, t)) == Accepted)
              && (o.report.value.Synced? ==>
                    o.report.value.topics == TopicsFor(users[userId].role) && |o.calls| == |TopicsFor(users[userId].role)|)
              && (forall i :: 0 <= i < |o.calls| - 1 ==> gateway(o.calls[i]) == Accepted)
              && (o.report.value.SyncFailed? ==> gateway(o.calls[|o.calls| - 1]) == Refused(o.report.value.error))
  {
    if !Truthy(after) || after == before then
      SyncOutcome(None, [], [])
    else if userId !in users then
      SyncOutcome(None, [userId], [])
    else
      var topics := TopicsFor(users[userId].role);
      var run := SubscribeEach(after.value, topics, gateway);
      AllAcceptedIffNoFailure(after.value, topics, gateway);
      SyncOutcome(Some(ReportOf(run, topics)), [userId], run.calls)
  }

  /** The loop completes exactly when the gateway accepts every topic; a
      non-empty topic list always issues at least one call. */
  lemma AllAcceptedIffNoFailure(token: string, topics: seq<string>, gateway: SubscribeGateway)
    ensures SubscribeEach(token, topics, gateway).failure.None? <==>
              forall t :: t in topics ==> gateway(SubscribeCall(token, t)) == Accepted
    ensures topics != [] ==> 0 < |SubscribeEach(token, topics, gateway).calls|
  {
  }

  /** Creating an administrator subscribes the user id to `all` and then `admin`. */
  lemma AdministratorGetsAllAndAdmin(userId: string, gateway: SubscribeGateway)
    requires forall t :: gateway(SubscribeCall(userId, t)) == Accepted
    ensures var o := SubscribeUserToTopics(userId, User(Some(Administrator), None), gateway);
      && o.calls == [SubscribeCall(userId, "all"), SubscribeCall(userId, "admin")]
      && o.report == Some(Synced(["all", "admin"]))
  {
    var o := SubscribeUserToTopics(userId, User(Some(Administrator), None), gateway);
    assert TopicsFor(Some(Administrator)) == ["all", "admin"];
    assert |o.calls| == 2;
  }
}

=== FILE: topic_policy.dfy ===
/** The role-to-topics rule, written out identically in both subscription
    handlers: every user gets `all`, residents also `residents`,
    administrators also `admin`. */
module TopicPolicy {
  import opened Common

  const Resident := "住戶"
  const Administrator := "管理員"

  const AllTopic := "all"
  const ResidentsTopic := "residents"
  const AdminTopic := "admin"

  /** The topics, in subscription order, for a user whose `role` field is
      `role` (strict equality: any other value, or none, adds nothing). */
  function TopicsFor(role: Option<string>): (topics: seq<string>)
    ensures 1 <= |topics| <= 2
    ensures topics[0] == AllTopic
    ensures ResidentsTopic in topics <==> role == Some(Resident)
    ensures AdminTopic in topics <==> role == Some(Administrator)
    ensures |topics| == 2 <==> role == Some(Resident) || role == Some(Administrator)
    ensures forall i, j :: 0 <= i < j < |topics| ==> topics[i] != topics[j]
  {
    var topics := [AllTopic];
    if role == Some(Resident) then topics + [ResidentsTopic]
    else if role == Some(Administrator) then topics + [AdminTopic]
    else topics
  }
}
